=== FILE: README.md ===
# Cantas board core, modelled in Dafny

Cantas is a real-time kanban board. This project models two parts of it:

- **The board page's client logic** (`public/javascripts/views/board.js`):
  - the numeric `order` keys that keep the board's lists and cards sorted: appending a list, reopening an archived list or card, and the drag-and-drop reorder (`updateSort`);
  - the patches the page sends when the board's title, description or visibility is edited;
  - the chain of expanded editing views, which keeps at most one edit area open.
- **The server's socket layer** (`sockets/index.js`):
  - each connection's `Room`: the board it is on, joining the board's socket room, leaving all rooms, and who an emission reaches;
  - the handshake's authorisation decision;
  - the `join-board` handler, which annotates every visitor with a role and announces the joining user.

Where the system talks to something outside these two files, the model takes that collaborator's answer as a parameter:

- Backbone's `validate` hook is a predicate `valid` on attribute hashes.
- The board lookup and the board member list are values passed to the handler.
- The cookie parser, the session store and passport's deserialiser are functions passed to `Authorize`.
- socket.io's room bookkeeping is the explicit `Rooms.Registry` value.

Every operation is a pure function from the old state to the new state plus the messages it emits. A JavaScript exception is the outcome `Fault`. Nothing is sent after it. In the `join-board` handler it carries the registry as the exception left it. A throw while listing the room's users comes after the join, so the join stands. The throw for a missing board comes before any join and leaves the registry unchanged.

Files:

- `sorted_keys.dfy`: strictly increasing key sequences, and the fact that re-sorting has only one outcome.
- `order_keys.dfy`: order-key allocation and the reorder goal.
- `text.dfy`: `String.prototype.trim`.
- `patches.dfy`: attribute hashes and the `{changes, original}` patches.
- `edit_intents.dfy`: the title, description, visibility, reopen and reorder edits.
- `view_chain.dfy`: the expanded-view chain.
- `rooms.dfy`, `roles.dfy`, `authorization.dfy` and `join_handler.dfy`: the socket layer.
- `wrappers.dfy`: `Option`.

## Model

| member | source | states |
|---|---|---|
| OrderKeys.AppendOrder | public/javascripts/views/board.js:314-326 | A list appended to an empty board gets 65535. Otherwise it gets the last list's key plus 65536. |
| OrderKeys.AppendGoesLast | public/javascripts/views/board.js:314-326 | The appended key sorts after every existing key. Re-sorting leaves the new list last and the other lists in their old order. |
| OrderKeys.ReopenOrder | public/javascripts/views/board.js:428-431 | The reopened item's key is strictly above every sibling key. It is the largest sibling plus 65536, or 65535 when there are no siblings. |
| OrderKeys.UpdateSort | public/javascripts/views/board.js:788-821 | The key is computed per drop position. The last position gets the last key plus 65536, and this overrides the first-position case on a one-list board. Otherwise the first position gets half the first key. An interior drop from the left gets the midpoint of the target key and its right neighbour. An interior drop from the right gets the midpoint of the target key and its left neighbour. An interior drop onto the list's own key matches no case and yields -1. On increasing keys each value lies strictly between the keys that flank the drop slot. |
| OrderKeys.Reorder | public/javascripts/views/board.js:823-826 | A reorder writes only the dragged list's key. Every other key is unchanged. |
| OrderKeys.ReorderLandsAtTarget | public/javascripts/views/board.js:788-829 | Preconditions: the keys increase strictly, the first key is positive, and the list moves to a different index. Then re-sorting by key leaves the dragged list exactly at the drop index, and a sorted arrangement exists. |
| OrderKeys.InteriorSelfDropIsUnset | public/javascripts/views/board.js:792-821 | Dropping a list onto its own interior position leaves its key at -1. |
| OrderKeys.SelfDropMovesToFront | public/javascripts/views/board.js:792-829 | After such a self-drop on a board with positive keys, the re-sort moves that list to the front. |
| OrderKeys.NegativeFirstKeyMissesFront | public/javascripts/views/board.js:796-829 | With keys -1, 1 and 3 (a first key left by a self-drop), dragging the third list to the front gives it -0.5. Re-sorting puts that list second, not first. |
| OrderKeys.SingleListGetsLastPlusGap | public/javascripts/views/board.js:796-821 | On a one-list board the "last" case overrides the "first" case, so the key becomes the old key plus 65536. |
| OrderKeys.ThirdToFrontExample | public/javascripts/views/board.js:796-799 | Keys 65536, 131072 and 196608; dragging the third list to the front gives it 32768 and writes no other key. |
| SortedKeys.SortedUnique | public/javascripts/views/board.js:829 | Two strictly increasing sequences with the same multiset of keys are equal, so re-sorting by key has exactly one outcome. |
| Text.Trim | public/javascripts/views/board.js:103 | The trimmed text is empty exactly when the input is all whitespace. Otherwise it neither starts nor ends with whitespace. |
| Text.TrimPadded | public/javascripts/views/board.js:103 | Whitespace padding on either side of a core text with no edge whitespace trims away to exactly that core. |
| Text.TrimIdempotent | public/javascripts/views/board.js:103 | Trimming twice gives the same result as trimming once. |
| Text.TrimSplits | public/javascripts/views/board.js:103 | Every input is some leading whitespace, then its trimmed text, then some trailing whitespace. |
| EditIntents.SetAndPatch | public/javascripts/views/board.js:108-115 | A patch is sent exactly when validation accepts the new value and the value differs from the old one. The patch's `original` holds the old value and matches the attributes. Applying the patch gives the new attributes. A rejected value changes nothing. |
| EditIntents.SaveTitle | public/javascripts/views/board.js:102-118 | The dialog stays open exactly when the trimmed title is empty, and then nothing changes. Otherwise the trimmed title is patched exactly when it is valid and new, with the previous title as `original`. |
| EditIntents.SaveTitleIdempotent | public/javascripts/views/board.js:108-115 | Saving the same title a second time sends no patch. |
| EditIntents.SaveDescription | public/javascripts/views/board.js:242-252 | The trimmed description is patched exactly when it is valid and new, with the previous description as `original`. An all-blank input clears the description when validation allows it. |
| EditIntents.ToggleVisibility | public/javascripts/views/board.js:862-867 | The patch makes the board private exactly when `isPublic` is strictly `true`. Otherwise it makes the board public. The patch is always sent, and its `original` matches the attributes. |
| EditIntents.ToggleTwiceRestores | public/javascripts/views/board.js:862-867 | Toggling twice from a boolean visibility restores the first value. Each toggle's `original` matches the state it was built from. |
| EditIntents.ReopenPatch | public/javascripts/views/board.js:428-439 | The reopen patch un-archives the item and sets a key above every sibling key. Its `original` claims only `isArchived: true`. |
| EditIntents.ReopenUnarchives | public/javascripts/views/board.js:433-439 | The reopen patch applies exactly to an archived item. Applying it sets `isArchived` to false and the key to the reopen key, and touches no other field. |
| EditIntents.IndexOfList | public/javascripts/views/board.js:453-454 | The result is the first list view with the card's list id, or -1 exactly when no view has that id. |
| EditIntents.ReopenCard | public/javascripts/views/board.js:446-491 | When the card's list is shown, the patch is the reopen patch over that view's card keys. Otherwise it is the reopen patch over the fetched card keys. Either way the new key is the largest of those keys plus 65536. No patch is sent exactly when the list is not shown and the fetch fails. |
| EditIntents.ReorderPatch | public/javascripts/views/board.js:824-826 | The reorder patch carries only the new `order`. It has no `original`, so it applies to any attributes. |
| ViewChain.RememberMe | public/javascripts/views/board.js:51-61 | Every view in the chain is collapsed, front first, and the chain becomes just the calling view. |
| ViewChain.ForgetMe | public/javascripts/views/board.js:62-66 | When the calling view is in the chain, the last view is popped. Otherwise the chain is left alone. |
| ViewChain.CollapsePreviousEdit | public/javascripts/views/board.js:840-845 | The last view is popped and collapsed. An empty chain collapses nothing. |
| ViewChain.AtMostOneExpanded | public/javascripts/views/board.js:51-66 | Starting from at most one expanded view, any sequence of remember, forget and body-click events keeps at most one view expanded. |
| ViewChain.ForgetMeRemovesSelf | public/javascripts/views/board.js:62-66 | With at most one view expanded, `forgetMe` removes exactly the calling view, and only when that view is the one expanded. |
| ViewChain.CollapseReentryHarmless | public/javascripts/views/board.js:257-262 | A view collapsed by a body click that then calls `forgetMe` from `collapse` changes nothing further. |
| Rooms.RoomName | sockets/index.js:28-30 | A board's room name is `board:` followed by the board id. |
| Rooms.RoomNameRoundTrip | sockets/index.js:28-30 | Room names and board ids convert back and forth without loss, so distinct boards have distinct rooms. |
| Rooms.JoinAddsRoom | sockets/index.js:39-41 | Under the registry invariant, a join adds exactly the board's room to the connection's rooms and removes none. |
| Rooms.Connect | sockets/index.js:19-26 | The new connection carries its handshake user, its `Room` has no board, and it is in no room. Every other connection and every room are unchanged. The registry invariant is preserved. |
| Rooms.JoinBoard | sockets/index.js:32-49 | The connection ends up in the board's room exactly once. The room's list gains it at the end only when it was missing, and is returned in join order. The `Room`'s board becomes that room. Other rooms are unchanged and the registry invariant is preserved. |
| Rooms.JoinKeepsEarlierRooms | sockets/index.js:24-41 | Joining a second board does not leave the first room, while `Room.board` names only the second. |
| Rooms.Recipients | sockets/index.js:75-83 | An emission reaches the connections of the current board's room, or every connection while there is no board. With `exceptMe` the sender is left out. |
| Rooms.EmitAfterJoinReachesRoom | sockets/index.js:39-41 | After a join, an emission reaches exactly the room `joinBoard` lists, the joiner included. With `exceptMe` it reaches that room without the joiner. |
| Rooms.EmitBeforeJoinReachesAll | sockets/index.js:19-26 | A fresh connection, whose `Room` has no board, emits to every connection of the namespace. |
| Rooms.LeaveAllRoom | sockets/index.js:58-65 | `user-logout` with `ok` 0 and the leaver's user goes to the current board's audience. Under the registry invariant the leaver is included, because a connection whose `Room` names a board is in that board's room. The `leave` loop receives the index's `true` values, so no room is left and the registry is unchanged. |
| Rooms.Disconnect | sockets/index.js:191-196 | A disconnect sends `leaveAllRoom`'s notice. socket.io's cleanup then takes the connection out of every room and forgets it. Every other connection's rooms are unchanged and the invariant is preserved. |
| Roles.Classify | sockets/index.js:159-172 | A visitor gets a role they are entitled to (admin for the creator, member for a listed member, viewer for anyone), and it is the highest such role. |
| Roles.WireRoleDetermines | sockets/index.js:160-170 | The `role.name` sent to clients identifies the role, and so does the `role.desc`. |
| JoinHandler.Users | sockets/index.js:42-47 | The room's users are listed in room order, and the list is missing exactly when some connection has no user. |
| JoinHandler.Annotate | sockets/index.js:159-172 | Each listed user keeps its position and carries the role its id earns on the board. |
| JoinHandler.EntriesOf | sockets/index.js:176-180 | The entries for the joining user are exactly the listed visitors with that user's id, with their multiplicities. |
| JoinHandler.Welcome | sockets/index.js:176-182 | One `user-login:board:<id>` event is sent for each entry of the joining user, then the `joined-board` reply to the joiner. |
| JoinHandler.AcceptJoin | sockets/index.js:153-183 | Whether the handler completes or throws, the registry is left exactly as `Room.joinBoard` leaves it. The join runs before the listing that can throw. |
| JoinHandler.JoinFaultsIffUserMissing | sockets/index.js:39-47 | Joining throws exactly when a connection in the room has no handshake user. Either way the registry invariant holds afterwards. |
| JoinHandler.FaultPersists | sockets/index.js:39-47 | After a join that throws, the joiner is in the room with its board set. The next join to that board, by any connection already present, throws too. This holds for as long as the user-less connection stays in the room. |
| JoinHandler.ReplyListsRoom | sockets/index.js:158-182 | The reply carries `ok` 0, the lookup's message and one visitor per room connection in join order, the joiner included. Each visitor has its user and role. |
| JoinHandler.LoginsReachWholeRoom | sockets/index.js:174-180 | There is at least one `user-login` event. Every one carries the joining user and goes to the whole room, the joiner included. |
| JoinHandler.HandleJoin | sockets/index.js:149-187 | `ok` 1 sends the lookup back as it is and joins nothing. Any other non-zero `ok` sends nothing. `ok` 0 without a board throws before anything changes. `ok` 0 with a board joins and welcomes. |
| Authorization.Authorize | sockets/index.js:92-122 | A missing cookie is rejected with "No cookie transmitted.". A load error or a missing session is rejected with "Error". A session without a `passport` throws (`Fault`). A session with a passport is accepted with the deserialised user. |
| Authorization.DeserializeErrorIgnored | sockets/index.js:116-119 | The deserialiser's error is never consulted. Only the user it yields affects the decision. |
| Authorization.NoCookieShortCircuits | sockets/index.js:95-97 | Without a cookie the session store is not consulted. |
| Authorization.Admit | sockets/index.js:124-138 | An accepted handshake adds a connection with its user and no board, leaving every other connection and every room unchanged. Any other decision adds nothing. |

## Behaviour worth knowing

- **Rooms are kept on re-join.** A connection that joins a second board stays in the first board's room. `Room.board` moves to the second room, but nothing calls `leave`. `Rooms.JoinKeepsEarlierRooms` states this.
- **`user-login` goes to the whole room.** The event is emitted without `exceptMe`, so it reaches the whole board room, the joiner included. `JoinHandler.LoginsReachWholeRoom` states this.
- **`user-logout` is sent before anything is left.** It goes to the whole current room, including the leaver (the registry invariant keeps a connection with a board in that board's room). With no board it goes to every connection.
- **Deserialisation errors are ignored.** A handshake whose user deserialisation reports an error is still accepted, with whatever user the deserialiser gives. A session without a `passport` throws.
- **Interior drops.** The left-to-right interior case averages the drop target's key with its right neighbour's key. The right-to-left case averages the target's key with its left neighbour's key. A drop onto the list's own interior slot writes -1. When the keys are strictly increasing and the first one is positive, that sends the list to the front (`OrderKeys.SelfDropMovesToFront`). Whether the drag library reports such a drop is outside this model.
- **Empty boards.** An append or reopen on an empty board gets the key 65535, because the allocation starts from -1 and adds 65536.
- **No renumbering.** Keys are never renumbered when neighbouring keys get close.

## Left out

- DOM rendering, jQuery event wiring, animations, scrollbars, dialogs and `alert`: none of these change the model state. The body click that `saveClicked` triggers is modelled separately as `ViewChain.CollapsePreviousEdit`.
- The AJAX and socket transport: requests, fetches, timeouts and `renderTimeoutBox` are outside the model. A fetched card or list appears only as the values it yields. A failed list fetch in `reopenArchivedList` sends no patch and is not modelled beyond that.
- `sockets/crud/attachment.js`, `crud.setUp`, `SocketPatch.patch`, `BoardMembership.init`, `BoardMove.init` and the signal registration are not part of this model.
- `Room.crudAudiences` returns `Room.board` unchanged. Its audience is `Rooms.Recipients`.
- OrderKeys: keys are exact reals. IEEE double rounding, which eventually makes repeated halving collide, is not modelled.
- OrderKeys.ReorderLandsAtTarget: assumes strictly increasing keys and a positive first key. Two things break that assumption. Repeated halving can make keys collide once doubles are used. An interior self-drop writes -1 as a first key, after which a drop to the front misses index 0 (`OrderKeys.NegativeFirstKeyMissesFront`).
- Text.IsSpace: uses the ECMAScript whitespace and line-terminator set of current engines. U+180E is not whitespace there, and older engines that treat it as whitespace are not modelled.
- JoinHandler.HandleJoin: takes the member list as given. A failing `getBoardMembers`, whose `undefined.map` would throw, is not modelled. The asynchronous interleaving of the lookup callbacks with other connections' events is not modelled either; each handler runs atomically.
- Rooms.LeaveAllRoom: socket.io 0.9 keeps a connection's rooms as an object from namespaced room name to `true`. The loop at sockets/index.js:62-64 therefore passes `true` to `leave` and leaves no room, and the model leaves none. The rooms are emptied only by socket.io's disconnect cleanup, which `Rooms.Forget` models inside `Rooms.Disconnect`. That cleanup belongs to the socket.io library, not to these files.
- Authorization.Authorize: cookie parsing, the session store and passport are inputs. Their internals, and the `express.sid` cookie format, are not modelled.
- The patch method's own options (`silent`, `validate`) and the server-side conflict check against `original` are not in these files. `Patches.Matches` states what `original` asserts, and nothing on the client enforces it.

=== FILE: authorization.dfy ===
/** The socket handshake's authorisation decision.

    The cookie parser, the session store and passport's user
    deserialisation are inputs: each is a function giving what that
    collaborator reports. */
module Authorization {
  import opened Wrappers
  import opened Rooms

  /** `session.passport`, holding the serialised user key. */
  datatype Passport = Passport(user: Option<string>)

  datatype Session = Session(passport: Option<Passport>)

  /** What the session store's `load` reports: an error, or a session that
      may be missing. */
  datatype Load = LoadError | Loaded(session: Option<Session>)

  /** What `deserializeUser` reports: an error flag and a user, if any. */
  datatype Deserialized = Deserialized(err: bool, user: Option<User>)

  /** The handshake's outcome. `Fault` is reading `passport.user` of a
      session without a `passport`, which throws and never answers. */
  datatype Decision = Rejected(reason: string) | Accepted(user: Option<User>) | Fault

  /** A cookie header JavaScript treats as present (neither absent nor the
      empty string). */
  predicate HasCookie(header: Option<string>) {
    header.Some? && header.value != ""
  }

  /** The `authorization` handler: no cookie header → rejected; a load error
      or no session → rejected; otherwise accepted with whatever user the
      deserialiser yields. */
  function Authorize(header: Option<string>, sessionIdOf: string -> Option<string>,
                     load: Option<string> -> Load, deserialize: Option<string> -> Deserialized): (d: Decision)
    ensures !HasCookie(header) <==> d == Rejected("No cookie transmitted.")
    ensures d == Rejected("Error") <==>
              && HasCookie(header)
              && (load(sessionIdOf(header.value)).LoadError?
                  || load(sessionIdOf(header.value)) == Loaded(None))
    ensures d.Accepted? <==>
              && HasCookie(header)
              && load(sessionIdOf(header.value)).Loaded?
              && load(sessionIdOf(header.value)).session.Some?
              && load(sessionIdOf(header.value)).session.value.passport.Some?
    ensures d == Fault <==>
              && HasCookie(header)
              && load(sessionIdOf(header.value)).Loaded?
              && load(sessionIdOf(header.value)).session.Some?
              && load(sessionIdOf(header.value)).session.value.passport.None?
    ensures d.Accepted? ==>
              d.user == deserialize(load(sessionIdOf(header.value)).session.value.passport.value.user).user
  {
    if !HasCookie(header) then Rejected("No cookie transmitted.")
    else
      var sid := sessionIdOf(header.value);
      match load(sid)
      case LoadError => Rejected("Error")
      case Loaded(None) => Rejected("Error")
      case Loaded(Some(session)) =>
        if session.passport.None? then Fault
        else Accepted(deserialize(session.passport.value.user).user)
  }

  /** The deserialiser's error flag is never consulted: two deserialisers
      yielding the same users decide alike. */
  lemma DeserializeErrorIgnored(header: Option<string>, sessionIdOf: string -> Option<string>,
                                load: Option<string> -> Load,
                                d1: Option<string> -> Deserialized, d2: Option<string> -> Deserialized)
    requires forall k :: d1(k).user == d2(k).user
    ensures Authorize(header, sessionIdOf, load, d1) == Authorize(header, sessionIdOf, load, d2)
  {
  }

  /** Without a cookie the session store is not consulted: any store gives
      the same rejection. */
  lemma NoCookieShortCircuits(header: Option<string>, sessionIdOf: string -> Option<string>,
                              l1: Option<string> -> Load, l2: Option<string> -> Load,
                              deserialize: Option<string> -> Deserialized)
    requires !HasCookie(header)
    ensures Authorize(header, sessionIdOf, l1, deserialize) == Authorize(header, sessionIdOf, l2, deserialize)
  {
  }

  /** The `connection` handler: an accepted handshake becomes a connection
      whose `Room` has no board yet; anything else adds nothing. */
  function Admit(reg: Registry, c: ConnId, d: Decision): (r: Registry)
    requires c !in reg.conns
    ensures d.Accepted? ==> c in r.conns && r.conns[c] == Conn(d.user, None)
    ensures !d.Accepted? ==> r == reg
    ensures r.rooms == reg.rooms
    ensures forall x :: x != c ==> (x in r.conns <==> x in reg.conns)
    ensures forall x :: x != c && x in reg.conns ==> r.conns[x] == reg.conns[x]
    ensures Valid(reg) ==> Valid(r)
  {
    if d.Accepted? then Connect(reg, c, d.user) else reg
  }
}

=== FILE: edit_intents.dfy ===
/** What the board page sends when the user edits the board or reopens an
    archived item: the model's attributes afterwards and the optional patch.

    Backbone's `validate` hook is the parameter `valid`: it judges the
    attribute hash a `set` would produce, and a `set` it rejects changes
    nothing. */
module EditIntents {
  import opened Wrappers
  import opened Text
  import opened Patches
  import opened OrderKeys

  /** The model's attributes after an edit, and the patch sent, if any. */
  datatype Edit = Edit(attrs: Attrs, patch: Option<Patch>)

  /** The board title dialog's outcome: `saved` is what `saveTitle` returns
      (false keeps the dialog open). */
  datatype TitleSave = TitleSave(saved: bool, edit: Edit)

  /** Setting one field with validation, then patching it only when its
      value changed, with `original` holding the value before the edit. */
  function SetAndPatch(attrs: Attrs, f: Field, v: Value, valid: Attrs -> bool): (e: Edit)
    ensures e.patch.Some? <==> valid(attrs[f := v]) && Get(attrs, f) != v
    ensures valid(attrs[f := v]) ==> Get(e.attrs, f) == v
    ensures forall g :: g != f ==> Get(e.attrs, g) == Get(attrs, g)
    ensures !valid(attrs[f := v]) ==> e.attrs == attrs
    ensures e.patch.Some? ==> e.patch.value.changes.Keys == {f} == e.patch.value.original.Keys
    ensures e.patch.Some? ==> Matches(attrs, e.patch.value) && Apply(attrs, e.patch.value) == e.attrs
  {
    var origin := Get(attrs, f);
    var candidate := attrs[f := v];
    if !valid(candidate) then Edit(attrs, None)
    else if origin == v then Edit(candidate, None)
    else Edit(candidate, Some(Patch(map[f := v], map[f := origin])))
  }

  /** `BoardTitleView.saveTitle`: the trimmed input is refused when empty;
      otherwise it is set with validation and patched when it changed. */
  function SaveTitle(attrs: Attrs, input: string, valid: Attrs -> bool): (t: TitleSave)
    ensures !t.saved <==> AllSpace(input)
    ensures !t.saved ==> t.edit == Edit(attrs, None)
    ensures t.edit.patch.Some? <==>
              !AllSpace(input) && valid(attrs[Title := Str(Trim(input))])
              && Get(attrs, Title) != Str(Trim(input))
    ensures t.edit.patch.Some? ==>
              && t.edit.patch.value.changes == map[Title := Str(Trim(input))]
              && t.edit.patch.value.original == map[Title := Get(attrs, Title)]
  {
    var title := Trim(input);
    if |title| == 0 then TitleSave(false, Edit(attrs, None))
    else TitleSave(true, SetAndPatch(attrs, Title, Str(title), valid))
  }

  /** Saving the same input a second time sends nothing: the first save
      already brought the model to that title. */
  lemma SaveTitleIdempotent(attrs: Attrs, input: string, valid: Attrs -> bool)
    ensures SaveTitle(SaveTitle(attrs, input, valid).edit.attrs, input, valid).edit.patch == None
  {
  }

  /** `BoardDescriptionView.saveClicked`: like the title, but an empty
      description is accepted. */
  function SaveDescription(attrs: Attrs, input: string, valid: Attrs -> bool): (e: Edit)
    ensures e.patch.Some? <==>
              valid(attrs[Description := Str(Trim(input))])
              && Get(attrs, Description) != Str(Trim(input))
    ensures e.patch.Some? ==>
              && e.patch.value.changes == map[Description := Str(Trim(input))]
              && e.patch.value.original == map[Description := Get(attrs, Description)]
    ensures AllSpace(input) && valid(attrs[Description := Str("")]) ==> Get(e.attrs, Description) == Str("")
  {
    SetAndPatch(attrs, Description, Str(Trim(input)), valid)
  }

  /** `BoardView.toggleVisibility`: the board becomes private exactly when it
      is strictly `true` now, and the patch is always sent. */
  function ToggleVisibility(attrs: Attrs): (p: Patch)
    ensures p.changes.Keys == {IsPublic} == p.original.Keys
    ensures Matches(attrs, p)
    ensures p.changes[IsPublic].Bool?
    ensures p.changes[IsPublic] == Bool(false) <==> Get(attrs, IsPublic) == Bool(true)
  {
    var visibility := if Get(attrs, IsPublic) == Bool(true) then false else true;
    var origin := Get(attrs, IsPublic);
    Patch(map[IsPublic := Bool(visibility)], map[IsPublic := origin])
  }

  /** Toggling twice from a boolean visibility restores it, and each
      toggle's `original` matches the attributes it was built from. */
  lemma ToggleTwiceRestores(attrs: Attrs)
    requires Get(attrs, IsPublic).Bool?
    ensures var once := Apply(attrs, ToggleVisibility(attrs));
            && Get(once, IsPublic) != Get(attrs, IsPublic)
            && Matches(once, ToggleVisibility(once))
            && Get(Apply(once, ToggleVisibility(once)), IsPublic) == Get(attrs, IsPublic)
  {
  }

  /** The patch a reopened archived list or card sends: un-archive it and
      give it a key after its siblings; `original` claims it was archived. */
  function ReopenPatch(siblings: seq<real>): (p: Patch)
    ensures p.changes.Keys == {IsArchived, Order} && p.original.Keys == {IsArchived}
    ensures p.changes[IsArchived] == Bool(false) && p.original[IsArchived] == Bool(true)
    ensures p.changes[Order].Num?
    ensures forall j :: 0 <= j < |siblings| ==> siblings[j] < p.changes[Order].x
  {
    Patch(map[IsArchived := Bool(false), Order := Num(ReopenOrder(siblings))],
          map[IsArchived := Bool(true)])
  }

  /** A list view of the board: its list's id and its cards' keys. */
  datatype ListView = ListView(listId: string, cardOrders: seq<real>)

  /** `_.indexOf` over the board's list views by list id: the first match,
      or -1. */
  function IndexOfList(views: seq<ListView>, listId: string): (i: int)
    ensures -1 <= i < |views|
    ensures i == -1 <==> forall j :: 0 <= j < |views| ==> views[j].listId != listId
    ensures i >= 0 ==> views[i].listId == listId && forall j :: 0 <= j < i ==> views[j].listId != listId
  {
    if |views| == 0 then -1
    else if views[0].listId == listId then 0
    else
      var i := IndexOfList(views[1..], listId);
      if i == -1 then -1 else i + 1
  }

  /** `ArchivedItemView.reopenArchivedCard` once the card is fetched: the
      sibling keys come from the card's list view when the board shows that
      list, otherwise from the keys fetched for the list (`fetched`, none
      when that request fails). */
  function ReopenCard(listId: string, views: seq<ListView>, fetched: Option<seq<real>>): (p: Option<Patch>)
    ensures p.None? <==> IndexOfList(views, listId) == -1 && fetched.None?
    ensures p.Some? ==> p.value.original == map[IsArchived := Bool(true)]
    ensures p.Some? ==> p.value.changes.Keys == {IsArchived, Order} && p.value.changes[IsArchived] == Bool(false)
    ensures IndexOfList(views, listId) >= 0 ==>
              var shown := views[IndexOfList(views, listId)].cardOrders;
              p.Some? && p.value.changes[Order].Num?
              && forall j :: 0 <= j < |shown| ==> shown[j] < p.value.changes[Order].x
    ensures IndexOfList(views, listId) >= 0 ==>
              p == Some(ReopenPatch(views[IndexOfList(views, listId)].cardOrders))
    ensures IndexOfList(views, listId) == -1 && fetched.Some? ==> p == Some(ReopenPatch(fetched.value))
    ensures IndexOfList(views, listId) == -1 && fetched.Some? ==>
              p.Some? && p.value.changes[Order].Num?
              && forall j :: 0 <= j < |fetched.value| ==> fetched.value[j] < p.value.changes[Order].x
  {
    var i := IndexOfList(views, listId);
    if i == -1 then
      match fetched
      case None => None
      case Some(orders) => Some(ReopenPatch(orders))
    else Some(ReopenPatch(views[i].cardOrders))
  }

  /** Reopening an archived item un-archives it and puts it after all its
      siblings; its `original` holds exactly when the item was archived. */
  lemma ReopenUnarchives(attrs: Attrs, siblings: seq<real>)
    ensures Matches(attrs, ReopenPatch(siblings)) <==> Get(attrs, IsArchived) == Bool(true)
    ensures Get(Apply(attrs, ReopenPatch(siblings)), IsArchived) == Bool(false)
    ensures Get(Apply(attrs, ReopenPatch(siblings)), Order) == Num(ReopenOrder(siblings))
    ensures forall f :: f != IsArchived && f != Order ==>
              Get(Apply(attrs, ReopenPatch(siblings)), f) == Get(attrs, f)
  {
  }

  /** The patch a drag-and-drop reorder sends: the new key of the dragged
      list only, with no `original`. */
  function ReorderPatch(keys: seq<real>, moved: real, p: nat): (r: Patch)
    requires p < |keys|
    ensures r.changes.Keys == {Order} && r.original == map[]
    ensures forall attrs :: Matches(attrs, r)
    ensures r.changes[Order] == Num(UpdateSort(keys, moved, p))
  {
    Patch(map[Order := Num(UpdateSort(keys, moved, p))], map[])
  }
}

=== FILE: join_handler.dfy ===
/** The server's `join-board` handler.

    The board lookup (`Board.joinBoard`) and the board's member list
    (`BoardMemberRelation.getBoardMembers`, as user-id strings) are inputs.
    On `ok == 0` the connection joins the board's room, every user in the
    room is annotated with a role, a `user-login:board:<id>` event goes to
    the room for each listed entry of the joining user, and the joiner gets
    `joined-board` with the annotated list. On `ok == 1` the lookup result
    is forwarded as it is; any other `ok` gets no answer. */
module JoinHandler {
  import opened Wrappers
  import opened Rooms
  import opened Roles

  /** The board found by the lookup. */
  datatype BoardRef = BoardRef(id: string, creatorId: string)

  /** What `Board.joinBoard` answers. */
  datatype Lookup = Lookup(ok: int, board: Option<BoardRef>, message: string)

  /** A user of the room annotated with its role. */
  datatype Visitor = Visitor(user: User, role: Role)

  datatype Payload =
    | Login(ok: int, visitor: Visitor, boardId: string)
    | JoinedBoard(ok: int, visitors: seq<Visitor>, message: string)
    | Forwarded(lookup: Lookup)

  /** The handler's effect. `Fault` is a JavaScript exception (reading the
      id of a missing board, or serialising a connection without a user),
      after which nothing is sent; `reg` is the registry as the exception
      left it, including any join that ran before it. */
  datatype Outcome = Done(reg: Registry, sent: seq<Delivery<Payload>>) | Fault(reg: Registry)

  /** The users of the given connections, or none when one of them has no
      user. */
  function Users(reg: Registry, cs: seq<ConnId>): (us: Option<seq<User>>)
    requires forall c :: c in cs ==> c in reg.conns
    ensures us.Some? <==> forall j :: 0 <= j < |cs| ==> reg.conns[cs[j]].user.Some?
    ensures us.Some? ==> |us.value| == |cs|
    ensures us.Some? ==> forall j :: 0 <= j < |cs| ==> us.value[j] == reg.conns[cs[j]].user.value
  {
    if |cs| == 0 then Some([])
    else
      var rest := Users(reg, cs[1..]);
      match reg.conns[cs[0]].user
      case None => None
      case Some(u) =>
        if rest.None? then None
        else
          assert forall j :: 1 <= j < |cs| ==> cs[j] == cs[1..][j - 1];
          Some([u] + rest.value)
  }

  /** Each user annotated with the role its id earns on the board. */
  function Annotate(users: seq<User>, creatorId: string, memberIds: seq<string>): (vs: seq<Visitor>)
    ensures |vs| == |users|
    ensures forall j :: 0 <= j < |vs| ==>
              vs[j].user == users[j] && vs[j].role == Classify(users[j].id, creatorId, memberIds)
  {
    seq(|users|, j requires 0 <= j < |users| =>
      Visitor(users[j], Classify(users[j].id, creatorId, memberIds)))
  }

  /** The entries of `vs` whose user id is `id`, in order: the visitors
      that a `user-login` event is sent for. */
  function EntriesOf(vs: seq<Visitor>, id: string): (r: seq<Visitor>)
    ensures forall k :: 0 <= k < |r| ==> r[k].user.id == id
    ensures forall v :: multiset(r)[v] == if v.user.id == id then multiset(vs)[v] else 0
  {
    if |vs| == 0 then []
    else
      assert vs == [vs[0]] + vs[1..];
      if vs[0].user.id == id then [vs[0]] + EntriesOf(vs[1..], id)
      else EntriesOf(vs[1..], id)
  }

  /** An entry carrying `id` yields at least one `user-login` event. */
  lemma {:induction false} EntriesOfNonEmpty(vs: seq<Visitor>, id: string, j: nat)
    requires j < |vs| && vs[j].user.id == id
    ensures |EntriesOf(vs, id)| > 0
  {
    assert vs[j] in multiset(vs);
    assert multiset(EntriesOf(vs, id))[vs[j]] > 0;
  }

  /** What the handler sends once the room's users are known: a
      `user-login` event to `room` for each entry of `me` among the
      visitors, then the `joined-board` reply to the joiner. */
  function Welcome(visitors: seq<Visitor>, me: User, room: set<ConnId>, c: ConnId,
                   boardId: string, message: string): (sent: seq<Delivery<Payload>>)
    ensures |sent| == |EntriesOf(visitors, me.id)| + 1
    ensures sent[|sent| - 1] == Delivery({c}, "joined-board", JoinedBoard(0, visitors, message))
    ensures forall k :: 0 <= k < |sent| - 1 ==>
              sent[k] == Delivery(room, "user-login:board:" + boardId,
                                  Login(0, EntriesOf(visitors, me.id)[k], boardId))
  {
    var logins := EntriesOf(visitors, me.id);
    var events := seq(|logins|, k requires 0 <= k < |logins| =>
      Delivery(room, "user-login:board:" + boardId, Login(0, logins[k], boardId)));
    events + [Delivery({c}, "joined-board", JoinedBoard(0, visitors, message))]
  }

  /** The `ok == 0` branch once the board is known: join the room, list and
      annotate its users, and send the welcome messages. The join happens
      before the listing, so it stands even when the listing throws. */
  function AcceptJoin(reg: Registry, c: ConnId, boardId: string, board: BoardRef,
                      message: string, memberIds: seq<string>): (o: Outcome)
    requires Valid(reg) && c in reg.conns
    ensures o.reg == JoinBoard(reg, c, boardId).reg
  {
    var joined := JoinBoard(reg, c, boardId);
    match Users(joined.reg, joined.members)
    case None => Fault(joined.reg)
    case Some(users) =>
      match reg.conns[c].user
      case None => Fault(joined.reg)
      case Some(me) =>
        var visitors := Annotate(users, board.creatorId, memberIds);
        Done(joined.reg, Welcome(visitors, me, Recipients(joined.reg, c, false), c, boardId, message))
  }

  /** Joining faults exactly when some connection of the room has no
      user; either way the registry stays valid. */
  lemma JoinFaultsIffUserMissing(reg: Registry, c: ConnId, boardId: string, board: BoardRef,
                                 message: string, memberIds: seq<string>)
    requires Valid(reg) && c in reg.conns
    ensures var o := AcceptJoin(reg, c, boardId, board, message, memberIds);
            && (o.Fault? <==> exists x :: x in JoinBoard(reg, c, boardId).members && reg.conns[x].user.None?)
            && Valid(o.reg)
  {
    var joined := JoinBoard(reg, c, boardId);
    var us := Users(joined.reg, joined.members);
    if us.None? {
      var j :| 0 <= j < |joined.members| && joined.reg.conns[joined.members[j]].user.None?;
      assert joined.members[j] in joined.members;
    } else {
      forall x | x in joined.members
        ensures reg.conns[x].user.Some?
      {
        var j :| 0 <= j < |joined.members| && joined.members[j] == x;
      }
    }
  }

  /** A join that faults leaves the joiner in the room with its board set,
      and every later join to that board by any connection faults too: the
      user-less connection is still listed. */
  lemma {:induction false} FaultPersists(reg: Registry, c: ConnId, c2: ConnId, boardId: string, board: BoardRef,
                                         message: string, memberIds: seq<string>)
    requires Valid(reg) && c in reg.conns && c2 in reg.conns
    requires AcceptJoin(reg, c, boardId, board, message, memberIds).Fault?
    ensures var o := AcceptJoin(reg, c, boardId, board, message, memberIds);
            && c in Members(o.reg, RoomName(boardId))
            && o.reg.conns[c].board == Some(RoomName(boardId))
            && AcceptJoin(o.reg, c2, boardId, board, message, memberIds).Fault?
  {
    var o := AcceptJoin(reg, c, boardId, board, message, memberIds);
    JoinFaultsIffUserMissing(reg, c, boardId, board, message, memberIds);
    var x :| x in JoinBoard(reg, c, boardId).members && reg.conns[x].user.None?;
    assert o.reg.conns[x].user.None?;
    var j2 := JoinBoard(o.reg, c2, boardId);
    assert x in j2.members;
    JoinFaultsIffUserMissing(o.reg, c2, boardId, board, message, memberIds);
  }

  /** The reply to the joiner lists every connection of the room, in join
      order and the joiner among them, each with its user and the role that
      user earns on the board; it carries `ok` 0 and the lookup's message. */
  lemma ReplyListsRoom(reg: Registry, c: ConnId, boardId: string, board: BoardRef,
                       message: string, memberIds: seq<string>)
    requires Valid(reg) && c in reg.conns
    ensures var o := AcceptJoin(reg, c, boardId, board, message, memberIds);
            o.Done? ==>
              var members := Members(o.reg, RoomName(boardId));
              var reply := o.sent[|o.sent| - 1];
              && c in members
              && reply.to == {c} && reply.name == "joined-board"
              && reply.payload.JoinedBoard? && reply.payload.ok == 0
              && reply.payload.message == message
              && |reply.payload.visitors| == |members|
              && forall j :: 0 <= j < |members| ==>
                   && Some(reply.payload.visitors[j].user) == o.reg.conns[members[j]].user
                   && reply.payload.visitors[j].role ==
                        Classify(reply.payload.visitors[j].user.id, board.creatorId, memberIds)
  {
    var o := AcceptJoin(reg, c, boardId, board, message, memberIds);
    if o.Done? {
      var joined := JoinBoard(reg, c, boardId);
      var users := Users(joined.reg, joined.members).value;
      var visitors := Annotate(users, board.creatorId, memberIds);
      assert o.sent[|o.sent| - 1].payload.visitors == visitors;
    }
  }

  /** Every message before the reply is a `user-login` event for the
      joining user, sent without `exceptMe` and so to the whole room, the
      joiner included; there is at least one, as the joiner is listed. */
  lemma LoginsReachWholeRoom(reg: Registry, c: ConnId, boardId: string, board: BoardRef,
                             message: string, memberIds: seq<string>)
    requires Valid(reg) && c in reg.conns
    ensures var o := AcceptJoin(reg, c, boardId, board, message, memberIds);
            o.Done? ==>
              && |o.sent| >= 2
              && forall k :: 0 <= k < |o.sent| - 1 ==>
                   && o.sent[k].to == (set x | x in Members(o.reg, RoomName(boardId)))
                   && c in o.sent[k].to
                   && o.sent[k].name == "user-login:board:" + boardId
                   && o.sent[k].payload.Login?
                   && o.sent[k].payload.ok == 0
                   && Some(o.sent[k].payload.visitor.user) == reg.conns[c].user
  {
    var o := AcceptJoin(reg, c, boardId, board, message, memberIds);
    if o.Done? {
      var joined := JoinBoard(reg, c, boardId);
      var users := Users(joined.reg, joined.members).value;
      var visitors := Annotate(users, board.creatorId, memberIds);
      var j :| 0 <= j < |joined.members| && joined.members[j] == c;
      var me := reg.conns[c].user.value;
      assert visitors[j].user == me;
      EntriesOfNonEmpty(visitors, me.id, j);
      var room := Recipients(joined.reg, c, false);
      assert room == set x | x in Members(joined.reg, RoomName(boardId));
      assert o.sent == Welcome(visitors, me, room, c, boardId, message);
    }
  }

  /** The `join-board` handler for connection `c`. */
  function HandleJoin(reg: Registry, c: ConnId, boardId: string, lookup: Lookup, memberIds: seq<string>): (o: Outcome)
    requires Valid(reg) && c in reg.conns
    // ok 1: the lookup result goes back verbatim and nothing is joined
    ensures lookup.ok == 1 ==> o == Done(reg, [Delivery({c}, "joined-board", Forwarded(lookup))])
    // any other answer but 0: nothing at all
    ensures lookup.ok != 0 && lookup.ok != 1 ==> o == Done(reg, [])
    // ok 0 without a board throws before anything changes; with one, the room is joined
    ensures lookup.ok == 0 && lookup.board.None? ==> o == Fault(reg)
    ensures lookup.ok == 0 && lookup.board.Some? ==>
              o == AcceptJoin(reg, c, boardId, lookup.board.value, lookup.message, memberIds)
  {
    if lookup.ok == 0 then
      if lookup.board.None? then Fault(reg)
      else AcceptJoin(reg, c, boardId, lookup.board.value, lookup.message, memberIds)
    else if lookup.ok == 1 then
      Done(reg, [Delivery({c}, "joined-board", Forwarded(lookup))])
    else
      Done(reg, [])
  }
}

=== FILE: order_keys.dfy ===
/** Order-key allocation for sibling lists and cards on a board.

    Every list (and every card inside a list) carries a numeric `order`;
    the collection is kept sorted by it. A new or moved element gets a key
    derived from its siblings' keys, and only that element's key is written.
    Keys are exact reals here; the client computes them in doubles. */
module OrderKeys {
  import opened SortedKeys

  /** Room left between a freshly appended key and the last one. */
  const Gap: real := 65536.0

  /** Starting value of every allocation before a case applies. */
  const Unset: real := -1.0

  /** Largest key of a non-empty sequence. */
  function Max(s: seq<real>): (m: real)
    requires |s| > 0
    ensures m in s
    ensures forall j :: 0 <= j < |s| ==> s[j] <= m
  {
    if |s| == 1 then s[0]
    else
      var rest := Max(s[1..]);
      assert forall j :: 1 <= j < |s| ==> s[j] == s[1..][j - 1];
      if s[0] < rest then rest else s[0]
  }

  /** Key of a list appended from the "add list" dialog: the last list's key
      plus the gap, or `Unset + Gap` on an empty board. */
  function AppendOrder(keys: seq<real>): (r: real)
    ensures |keys| == 0 ==> r == 65535.0
    ensures |keys| > 0 ==> r - keys[|keys| - 1] == Gap
  {
    if |keys| == 0 then Unset + Gap else keys[|keys| - 1] + Gap
  }

  /** An appended key goes after every sibling: re-sorting the collection
      with the new list leaves it at the end and the rest untouched. */
  lemma AppendGoesLast(keys: seq<real>)
    requires Increasing(keys)
    ensures Increasing(keys + [AppendOrder(keys)])
    ensures forall r :: Increasing(r) && multiset(r) == multiset(keys + [AppendOrder(keys)])
              ==> r == keys + [AppendOrder(keys)]
  {
    var k := AppendOrder(keys);
    assert forall j :: 0 <= j < |keys| ==> keys[j] < k by {
      if |keys| > 0 {
        assert forall j :: 0 <= j < |keys| ==> keys[j] <= keys[|keys| - 1];
      }
    }
    forall r | Increasing(r) && multiset(r) == multiset(keys + [k])
      ensures r == keys + [k]
    {
      SortedUnique(r, keys + [k]);
    }
  }

  /** Key given to a reopened (un-archived) list or card: the siblings'
      keys are sorted numerically and the last one plus the gap is taken,
      or `Unset + Gap` when there are no siblings. */
  function ReopenOrder(siblings: seq<real>): (r: real)
    ensures |siblings| == 0 ==> r == 65535.0
    ensures |siblings| > 0 ==> r - Gap in siblings
    ensures forall j :: 0 <= j < |siblings| ==> siblings[j] <= r - Gap
    ensures forall j :: 0 <= j < |siblings| ==> siblings[j] < r
  {
    var last := if |siblings| == 0 then Unset else Max(siblings);
    last + Gap
  }

  /** Key computed by a drag-and-drop reorder of the board's lists.

      `keys` are the collection's keys in collection order, read while the
      dragged list is still at its old index; `moved` is the dragged list's
      own key and `p` the index it was dropped at. The four cases are tried
      in turn and a later one that applies overrides an earlier one; when
      none applies the key stays `Unset`. */
  function UpdateSort(keys: seq<real>, moved: real, p: nat): (r: real)
    requires p < |keys|
    // dropped last: strictly above the last key
    ensures p == |keys| - 1 ==> r > keys[|keys| - 1]
    // dropped first among several: strictly between zero and the first key
    ensures p == 0 && |keys| > 1 && keys[0] > 0.0 ==> 0.0 < r < keys[0]
    // dropped inside, coming from the left: between the target and its right neighbour
    ensures (0 < p < |keys| - 1 && moved < keys[p] && keys[p] < keys[p + 1]) ==>
              keys[p] < r < keys[p + 1]
    // dropped inside, coming from the right: between the target's left neighbour and it
    ensures (0 < p < |keys| - 1 && moved > keys[p] && keys[p - 1] < keys[p]) ==>
              keys[p - 1] < r < keys[p]
    // the values the cases compute: half the first key, the two midpoints,
    // the last key plus the gap
    ensures p == |keys| - 1 ==> r == keys[|keys| - 1] + Gap
    ensures p == 0 && |keys| > 1 ==> r == keys[0] / 2.0
    ensures 0 < p < |keys| - 1 && moved < keys[p] ==> r == (keys[p] + keys[p + 1]) / 2.0
    ensures 0 < p < |keys| - 1 && moved > keys[p] ==> r == (keys[p - 1] + keys[p]) / 2.0
    // dropped inside onto its own key: no case applies
    ensures 0 < p < |keys| - 1 && moved == keys[p] ==> r == Unset
  {
    var n := |keys|;
    var first := if p == 0 then keys[p] / 2.0 else Unset;
    var fromLeft := if moved < keys[p] && 0 < p < n - 1
                    then (keys[p] + keys[p + 1]) / 2.0 else first;
    var fromRight := if moved > keys[p] && 0 < p < n - 1
                     then (keys[p - 1] + keys[p]) / 2.0 else fromLeft;
    if p == n - 1 then keys[n - 1] + Gap else fromRight
  }

  /** The keys after a reorder: the dragged list at index `i` gets the new
      key and nothing else is written. */
  function Reorder(keys: seq<real>, i: nat, p: nat): (r: seq<real>)
    requires i < |keys| && p < |keys|
    ensures |r| == |keys|
    ensures forall j :: 0 <= j < |keys| && j != i ==> r[j] == keys[j]
  {
    keys[i := UpdateSort(keys, keys[i], p)]
  }

  /** The reorder goal. With strictly increasing keys and a positive first
      key, dragging the list at `i` to a different index `p` and re-sorting
      the collection by key leaves the dragged list at index `p`: the sorted
      arrangement exists and any sorted arrangement has the new key there. */
  lemma ReorderLandsAtTarget(keys: seq<real>, i: nat, p: nat)
    requires Increasing(keys) && |keys| > 0 && keys[0] > 0.0
    requires i < |keys| && p < |keys| && i != p
    ensures exists r :: Increasing(r) && multiset(r) == multiset(Reorder(keys, i, p))
    ensures forall r :: Increasing(r) && multiset(r) == multiset(Reorder(keys, i, p))
              ==> p < |r| && r[p] == UpdateSort(keys, keys[i], p)
  {
    var k := UpdateSort(keys, keys[i], p);
    var rest := RemoveAt(keys, i);
    RestBelowSplit(keys, i, p);
    assert forall j :: 0 <= j < |rest| ==> rest[j] != k;
    RemoveAtIncreasing(keys, i);
    InsertIncreasing(rest, k);
    BelowSplit(rest, p, k);
    ReorderMultiset(keys, i, k);
    var s := Insert(rest, k);
    assert multiset(s) == multiset(Reorder(keys, i, p));
    forall r | Increasing(r) && multiset(r) == multiset(Reorder(keys, i, p))
      ensures p < |r| && r[p] == k
    {
      SortedUnique(r, s);
    }
  }

  /** Removing a key keeps the rest increasing. */
  lemma RemoveAtIncreasing(keys: seq<real>, i: nat)
    requires Increasing(keys) && i < |keys|
    ensures Increasing(RemoveAt(keys, i))
  {
    var rest := RemoveAt(keys, i);
    forall a, b | 0 <= a < b < |rest|
      ensures rest[a] < rest[b]
    {
      var a' := if a < i then a else a + 1;
      var b' := if b < i then b else b + 1;
      assert keys[a'] < keys[b'];
    }
  }

  /** Overwriting one key trades that key for the new one in the multiset. */
  lemma ReorderMultiset(keys: seq<real>, i: nat, k: real)
    requires i < |keys|
    ensures multiset(keys[i := k]) == multiset(RemoveAt(keys, i)) + multiset{k}
  {
    assert keys[i := k] == keys[..i] + [k] + keys[i + 1..];
  }

  /** With the dragged list removed, the first `p` remaining keys are below
      the new key and the others above it. */
  lemma RestBelowSplit(keys: seq<real>, i: nat, p: nat)
    requires Increasing(keys) && |keys| > 0 && keys[0] > 0.0
    requires i < |keys| && p < |keys| && i != p
    ensures forall j :: 0 <= j < p ==> RemoveAt(keys, i)[j] < UpdateSort(keys, keys[i], p)
    ensures forall j :: p <= j < |keys| - 1 ==> UpdateSort(keys, keys[i], p) < RemoveAt(keys, i)[j]
  {
    var n := |keys|;
    var k := UpdateSort(keys, keys[i], p);
    var rest := RemoveAt(keys, i);
    if p == n - 1 {
      assert forall j :: 0 <= j < n - 1 ==> rest[j] <= keys[n - 1];
    } else if p == 0 {
      assert forall j :: 0 <= j < n - 1 ==> keys[0] <= rest[j];
    } else if i < p {
      assert keys[i] < keys[p];
      assert forall j :: 0 <= j < p ==> rest[j] <= keys[p];
      assert forall j :: p <= j < n - 1 ==> keys[p + 1] <= rest[j];
    } else {
      assert keys[i] > keys[p];
      assert forall j :: 0 <= j < p ==> rest[j] <= keys[p - 1];
      assert forall j :: p <= j < n - 1 ==> keys[p] <= rest[j];
    }
  }

  /** Dragging a list onto its own interior slot matches no case: the key
      written is `Unset`. */
  lemma InteriorSelfDropIsUnset(keys: seq<real>, i: nat)
    requires i < |keys| && 0 < i < |keys| - 1
    ensures Reorder(keys, i, i)[i] == Unset
  {
  }

  /** ... and so, once the collection is re-sorted, that list jumps to the
      front of a board whose keys are positive. */
  lemma SelfDropMovesToFront(keys: seq<real>, i: nat)
    requires 0 < i < |keys| - 1 && Increasing(keys) && keys[0] > 0.0
    ensures forall r :: Increasing(r) && multiset(r) == multiset(Reorder(keys, i, i))
              ==> |r| > 0 && r[0] == Unset
  {
    var rest := RemoveAt(keys, i);
    RemoveAtIncreasing(keys, i);
    ReorderMultiset(keys, i, Unset);
    assert forall j :: 0 <= j < |rest| ==> keys[0] <= rest[j];
    var s := [Unset] + rest;
    assert Increasing(s);
    assert multiset(s) == multiset(Reorder(keys, i, i));
    forall r | Increasing(r) && multiset(r) == multiset(Reorder(keys, i, i))
      ensures |r| > 0 && r[0] == Unset
    {
      SortedUnique(r, s);
    }
  }

  /** Once a self-drop has written `Unset`, the first key is negative and
      the drop-to-front case no longer reaches the front: with keys -1, 1
      and 3, dragging the third list to the front gives it -0.5, which
      sorts second, after the -1 key. */
  lemma NegativeFirstKeyMissesFront()
    ensures Reorder([Unset, 1.0, 3.0], 2, 0) == [Unset, 1.0, -0.5]
    ensures forall r :: Increasing(r) && multiset(r) == multiset(Reorder([Unset, 1.0, 3.0], 2, 0))
              ==> r == [Unset, -0.5, 1.0] && r[0] != UpdateSort([Unset, 1.0, 3.0], 3.0, 0)
  {
    var s := [Unset, -0.5, 1.0];
    assert multiset(s) == multiset(Reorder([Unset, 1.0, 3.0], 2, 0));
    forall r | Increasing(r) && multiset(r) == multiset(Reorder([Unset, 1.0, 3.0], 2, 0))
      ensures r == s
    {
      SortedUnique(r, s);
    }
  }

  /** On a one-list board the "last position" case overrides the "first
      position" case. */
  lemma SingleListGetsLastPlusGap(k: real)
    ensures UpdateSort([k], k, 0) == k + Gap
  {
  }

  /** Three lists keyed 65536, 131072, 196608; dragging the third to the
      front gives it 32768 and leaves the others as they were. */
  lemma ThirdToFrontExample()
    ensures Reorder([65536.0, 131072.0, 196608.0], 2, 0) == [65536.0, 131072.0, 32768.0]
  {
  }
}

=== FILE: patches.dfy ===
/** Field-level patches sent from the board page.

    A patch carries the changed fields and, optionally, an `original`
    object holding the value each field was believed to have before the
    edit. The server compares `original` against its stored entity; here it
    is only built. */
module Patches {

  /** The entity attributes the board page edits. */
  datatype Field = Title | Description | IsPublic | IsArchived | Order

  /** A JavaScript attribute value; `Undefined` is an absent attribute. */
  datatype Value = Undefined | Str(s: string) | Bool(b: bool) | Num(x: real)

  /** A Backbone model's attribute hash. */
  type Attrs = map<Field, Value>

  /** `model.get(f)`. */
  function Get(attrs: Attrs, f: Field): Value {
    if f in attrs then attrs[f] else Undefined
  }

  datatype Patch = Patch(changes: map<Field, Value>, original: map<Field, Value>)

  /** The patch's `original` describes `attrs`: every field it names holds
      the value recorded there. */
  predicate Matches(attrs: Attrs, p: Patch) {
    forall f :: f in p.original ==> Get(attrs, f) == p.original[f]
  }

  /** The attributes after the patch's changes are written. */
  function Apply(attrs: Attrs, p: Patch): (r: Attrs)
    ensures forall f :: f in p.changes ==> Get(r, f) == p.changes[f]
    ensures forall f :: f !in p.changes ==> Get(r, f) == Get(attrs, f)
  {
    attrs + p.changes
  }
}

=== FILE: roles.dfy ===
/** The role a visitor of a board is shown with. */
module Roles {

  datatype Role = Admin | Member | Viewer {

    /** The `role.name` sent to clients. */
    function Name(): string {
      match this
      case Admin => "admin"
      case Member => "member"
      case Viewer => "viewer"
    }

    /** The `role.desc` sent to clients. */
    function Desc(): string {
      match this
      case Admin => "Admin - full control"
      case Member => "Member - full control"
      case Viewer => "Viewer - view only"
    }
  }

  /** Admin outranks member, member outranks viewer. */
  function Rank(r: Role): nat {
    match r
    case Admin => 2
    case Member => 1
    case Viewer => 0
  }

  /** Whether a role is one the user is entitled to: admin for the board's
      creator, member for a user in the board's member list, viewer for
      anyone. */
  predicate Entitled(r: Role, userId: string, creatorId: string, memberIds: seq<string>) {
    match r
    case Admin => userId == creatorId
    case Member => userId in memberIds
    case Viewer => true
  }

  /** The role given to a visitor in the `join-board` handler: creator
      first, then the member list, otherwise viewer. */
  function Classify(userId: string, creatorId: string, memberIds: seq<string>): (r: Role)
    ensures Entitled(r, userId, creatorId, memberIds)
    ensures forall q :: Entitled(q, userId, creatorId, memberIds) ==> Rank(q) <= Rank(r)
  {
    if userId == creatorId then Admin
    else if userId in memberIds then Member
    else Viewer
  }

  /** The `role` object a client receives (its `name` and its `desc`)
      identifies the role, and either field alone does too. */
  lemma WireRoleDetermines(a: Role, b: Role)
    ensures a.Name() == b.Name() <==> a == b
    ensures a.Desc() == b.Desc() <==> a == b
  {
  }
}

=== FILE: rooms.dfy ===
/** The server's per-connection `Room` and the socket rooms it drives.

    Every connection has a `Room` holding one current board (a room name,
    or none before the first join). The socket layer keeps, per room name,
    the connections that joined it, in join order, and drops a room when its
    last connection leaves. All of this is one explicit registry value and
    each operation is a transition on it. */
module Rooms {
  import opened Wrappers

  type ConnId = nat

  /** The user a connection's handshake resolved; `id` is the user's id as
      a string. */
  datatype User = User(id: string)

  /** One connection: its handshake user (absent when deserialisation found
      none) and its `Room`'s current board. */
  datatype Conn = Conn(user: Option<User>, board: Option<string>)

  datatype Registry = Registry(conns: map<ConnId, Conn>, rooms: map<string, seq<ConnId>>)

  /** A message emitted to a set of connections. */
  datatype Delivery<P> = Delivery(to: set<ConnId>, name: string, payload: P)

  const Prefix: string := "board:"

  /** `boardIdToRoomName`. */
  function RoomName(boardId: string): (r: string)
    ensures |r| == |Prefix| + |boardId|
    ensures r[..|Prefix|] == Prefix && r[|Prefix|..] == boardId
  {
    Prefix + boardId
  }

  /** The board a room name belongs to, if it is a board room. */
  function BoardIdOf(room: string): (b: Option<string>)
    ensures b.Some? <==> |room| >= |Prefix| && room[..|Prefix|] == Prefix
  {
    if |room| >= |Prefix| && room[..|Prefix|] == Prefix then Some(room[|Prefix|..]) else None
  }

  /** Room names and board ids convert both ways. */
  lemma RoomNameRoundTrip(boardId: string, room: string)
    ensures BoardIdOf(RoomName(boardId)) == Some(boardId)
    ensures BoardIdOf(room) == Some(boardId) ==> RoomName(boardId) == room
  {
    if BoardIdOf(room) == Some(boardId) {
      assert room == room[..|Prefix|] + room[|Prefix|..];
    }
  }

  predicate NoDup(s: seq<ConnId>) {
    forall j, k :: 0 <= j < k < |s| ==> s[j] != s[k]
  }

  /** The registry's invariant: every room is non-empty, lists each
      connection once, and lists only live connections; and a connection
      whose `Room` names a board is in that board's room, since the board
      is set only right after joining and only a disconnect leaves. */
  ghost predicate Valid(reg: Registry) {
    && (forall r :: r in reg.rooms ==>
          && |reg.rooms[r]| > 0
          && NoDup(reg.rooms[r])
          && forall c :: c in reg.rooms[r] ==> c in reg.conns)
    && (forall c :: c in reg.conns && reg.conns[c].board.Some? ==>
          c in Members(reg, reg.conns[c].board.value))
  }

  /** The connections in a room, in join order. */
  function Members(reg: Registry, room: string): seq<ConnId> {
    if room in reg.rooms then reg.rooms[room] else []
  }

  /** `myRooms`: the rooms a connection is in. */
  function MyRooms(reg: Registry, c: ConnId): (rs: set<string>)
    ensures forall r :: r in rs <==> c in Members(reg, r)
  {
    set r | r in reg.rooms && c in reg.rooms[r]
  }

  /** A new, authorised connection: its `Room` has no board yet. */
  function Connect(reg: Registry, c: ConnId, user: Option<User>): (r: Registry)
    requires c !in reg.conns
    ensures Valid(reg) ==> Valid(r)
    ensures c in r.conns && r.conns[c] == Conn(user, None)
    ensures r.rooms == reg.rooms
    ensures forall x :: x != c ==> (x in r.conns <==> x in reg.conns)
    ensures forall x :: x != c && x in reg.conns ==> r.conns[x] == reg.conns[x]
    ensures Valid(reg) ==> MyRooms(r, c) == {}
  {
    Registry(reg.conns[c := Conn(user, None)], reg.rooms)
  }

  /** The registry after a join, and the room's connections afterwards. */
  datatype Joined = Joined(reg: Registry, members: seq<ConnId>)

  /** `Room.joinBoard`: join the board's room (a connection already in it
      is not added twice), make it the `Room`'s current board, and list the
      room's connections. Rooms joined earlier are NOT left. */
  function JoinBoard(reg: Registry, c: ConnId, boardId: string): (j: Joined)
    requires c in reg.conns
    ensures j.members == Members(j.reg, RoomName(boardId))
    ensures c in j.members
    ensures c in Members(reg, RoomName(boardId)) ==> j.members == Members(reg, RoomName(boardId))
    ensures c !in Members(reg, RoomName(boardId)) ==> j.members == Members(reg, RoomName(boardId)) + [c]
    ensures forall r :: r != RoomName(boardId) ==> Members(j.reg, r) == Members(reg, r)
    ensures j.reg.conns == reg.conns[c := reg.conns[c].(board := Some(RoomName(boardId)))]
    ensures Valid(reg) ==> Valid(j.reg)
  {
    var room := RoomName(boardId);
    var before := Members(reg, room);
    var after := if c in before then before else before + [c];
    var reg' := Registry(reg.conns[c := reg.conns[c].(board := Some(room))], reg.rooms[room := after]);
    Joined(reg', after)
  }

  /** Under the invariant, a join adds exactly the board's room to the
      connection's rooms. */
  lemma JoinAddsRoom(reg: Registry, c: ConnId, boardId: string)
    requires Valid(reg) && c in reg.conns
    ensures MyRooms(JoinBoard(reg, c, boardId).reg, c) == MyRooms(reg, c) + {RoomName(boardId)}
  {
    var j := JoinBoard(reg, c, boardId);
    forall r
      ensures r in MyRooms(j.reg, c) <==> r in MyRooms(reg, c) + {RoomName(boardId)}
    {
      if r != RoomName(boardId) {
        assert Members(j.reg, r) == Members(reg, r);
      }
    }
  }

  /** A connection joined to two boards in turn is in both rooms, while its
      `Room` remembers only the second. */
  lemma JoinKeepsEarlierRooms(reg: Registry, c: ConnId, first: string, second: string)
    requires c in reg.conns
    ensures var j1 := JoinBoard(reg, c, first).reg;
            var j2 := JoinBoard(j1, c, second).reg;
            && c in Members(j2, RoomName(first))
            && c in Members(j2, RoomName(second))
            && j2.conns[c].board == Some(RoomName(second))
  {
    var j1 := JoinBoard(reg, c, first).reg;
    if first != second {
      assert RoomName(first) != RoomName(second) by {
        RoomNameRoundTrip(first, RoomName(second));
      }
    }
  }

  /** Who an emission from `c` reaches: the connections in `c`'s current
      board room, or every connection of the namespace while `c` has no
      board; `exceptMe` leaves `c` out. */
  function Recipients(reg: Registry, c: ConnId, exceptMe: bool): (to: set<ConnId>)
    requires c in reg.conns
    ensures reg.conns[c].board.Some? ==>
              forall x :: x in to <==> x in Members(reg, reg.conns[c].board.value) && !(exceptMe && x == c)
    ensures reg.conns[c].board.None? ==>
              forall x :: x in to <==> x in reg.conns && !(exceptMe && x == c)
  {
    var audience := match reg.conns[c].board
      case Some(room) => set x | x in Members(reg, room)
      case None => reg.conns.Keys;
    if exceptMe then audience - {c} else audience
  }

  /** The `user-logout` payload. */
  datatype Logout = Logout(ok: int, visitor: Option<User>)

  /** The registry after `leaveAllRoom`, and the logout notice it emitted
      first. */
  datatype Left = Left(reg: Registry, notice: Delivery<Logout>)

  /** `s` without `c`, order kept. */
  function Without(s: seq<ConnId>, c: ConnId): (r: seq<ConnId>)
    ensures forall x :: x in r <==> x in s && x != c
    ensures NoDup(s) ==> NoDup(r)
  {
    if |s| == 0 then []
    else if s[0] == c then Without(s[1..], c)
    else
      var rest := Without(s[1..], c);
      if NoDup(s) then
        assert forall k :: 0 <= k < |s| - 1 ==> s[1..][k] == s[k + 1] != s[0];
        assert s[0] !in s[1..];
        assert NoDup(s[1..]) by {
          forall j, k | 0 <= j < k < |s[1..]|
            ensures s[1..][j] != s[1..][k]
          {
            assert s[1..][j] == s[j + 1] && s[1..][k] == s[k + 1];
          }
        }
        [s[0]] + rest
      else [s[0]] + rest
  }

  /** `Room.leaveAllRoom`: emit `user-logout` to the current board's
      audience (the leaver included), then call `leave` for each entry of
      the connection's room index. socket.io 0.9 keeps that index as an
      object from room name to `true`, so the loop passes `true` to `leave`
      and no room is left: the registry is unchanged. */
  function LeaveAllRoom(reg: Registry, c: ConnId): (l: Left)
    requires c in reg.conns
    ensures l.notice == Delivery(Recipients(reg, c, false), "user-logout", Logout(0, reg.conns[c].user))
    ensures Valid(reg) ==> c in l.notice.to
    ensures l.reg == reg
  {
    Left(reg, Delivery(Recipients(reg, c, false), "user-logout", Logout(0, reg.conns[c].user)))
  }

  /** socket.io's own cleanup of a closed connection: it is removed from
      every room (rooms left empty are dropped) and forgotten. */
  function Forget(reg: Registry, c: ConnId): (r: Registry)
    ensures c !in r.conns && MyRooms(r, c) == {}
    ensures forall rm, x :: x != c ==> (x in Members(r, rm) <==> x in Members(reg, rm))
    ensures r.conns == reg.conns - {c}
    ensures Valid(reg) ==> Valid(r)
  {
    var rooms := map rm | rm in reg.rooms && Without(reg.rooms[rm], c) != [] :: Without(reg.rooms[rm], c);
    Registry(reg.conns - {c}, rooms)
  }

  /** A disconnect: `leaveAllRoom` sends the logout notice, and socket.io's
      cleanup then takes the connection out of every room. */
  function Disconnect(reg: Registry, c: ConnId): (l: Left)
    requires c in reg.conns
    ensures l.notice == Delivery(Recipients(reg, c, false), "user-logout", Logout(0, reg.conns[c].user))
    ensures c !in l.reg.conns && MyRooms(l.reg, c) == {}
    ensures forall r, x :: x != c ==> (x in Members(l.reg, r) <==> x in Members(reg, r))
    ensures l.reg.conns == reg.conns - {c}
    ensures Valid(reg) ==> Valid(l.reg)
  {
    var left := LeaveAllRoom(reg, c);
    Left(Forget(left.reg, c), left.notice)
  }

  /** After a join, an emission reaches exactly the board's room, the
      joiner included, or the room without the joiner under `exceptMe`. */
  lemma EmitAfterJoinReachesRoom(reg: Registry, c: ConnId, boardId: string)
    requires c in reg.conns
    ensures var j := JoinBoard(reg, c, boardId);
            && Recipients(j.reg, c, false) == (set x | x in j.members)
            && c in Recipients(j.reg, c, false)
            && Recipients(j.reg, c, true) == (set x | x in j.members) - {c}
  {
  }

  /** Before any join, an emission reaches the whole namespace. */
  lemma EmitBeforeJoinReachesAll(reg: Registry, c: ConnId, user: Option<User>)
    requires c !in reg.conns
    ensures Recipients(Connect(reg, c, user), c, false) == reg.conns.Keys + {c}
  {
  }
}

=== FILE: sorted_keys.dfy ===
/** Strictly increasing sequences of order keys, and the re-sort that a
    collection ordered by `order` performs after one key is reassigned. */
module SortedKeys {

  /** Keys strictly increasing from left to right: a collection ordered by
      `order` with no two siblings sharing a key. */
  ghost predicate Increasing(s: seq<real>) {
    forall j, k :: 0 <= j < k < |s| ==> s[j] < s[k]
  }

  /** The sequence without its element at index `i`. */
  function RemoveAt(s: seq<real>, i: nat): (r: seq<real>)
    requires i < |s|
    ensures |r| == |s| - 1
    ensures forall j :: 0 <= j < i ==> r[j] == s[j]
    ensures forall j :: i <= j < |r| ==> r[j] == s[j + 1]
  {
    s[..i] + s[i + 1..]
  }

  /** Number of keys strictly below `k`. */
  function Below(s: seq<real>, k: real): (n: nat)
    ensures n <= |s|
  {
    if |s| == 0 then 0
    else (if s[0] < k then 1 else 0) + Below(s[1..], k)
  }

  /** Insertion of `k` in front of the first key not below it. */
  function Insert(s: seq<real>, k: real): (r: seq<real>)
    ensures |r| == |s| + 1
    ensures multiset(r) == multiset(s) + multiset{k}
  {
    if |s| == 0 then [k]
    else if k <= s[0] then [k] + s
    else
      assert s == [s[0]] + s[1..];
      [s[0]] + Insert(s[1..], k)
  }

  /** A key that is not in an increasing sequence lands between its
      neighbours: the result stays increasing and `k` sits at index
      `Below(s, k)`. */
  lemma {:induction false} InsertIncreasing(s: seq<real>, k: real)
    requires Increasing(s)
    requires forall j :: 0 <= j < |s| ==> s[j] != k
    ensures Increasing(Insert(s, k))
    ensures Below(s, k) < |Insert(s, k)| && Insert(s, k)[Below(s, k)] == k
  {
    if |s| == 0 {
    } else if k <= s[0] {
      assert k < s[0];
      BelowNone(s, k);
    } else {
      InsertIncreasing(s[1..], k);
      InsertAbove(s[1..], k, s[0]);
      var t := Insert(s[1..], k);
      assert Insert(s, k) == [s[0]] + t;
    }
  }

  /** Inserting a key above a bound into keys above that bound keeps every
      key above it. */
  lemma {:induction false} InsertAbove(s: seq<real>, k: real, lo: real)
    requires forall j :: 0 <= j < |s| ==> lo < s[j]
    requires lo < k
    ensures forall j :: 0 <= j < |Insert(s, k)| ==> lo < Insert(s, k)[j]
  {
    if |s| > 0 && s[0] < k {
      InsertAbove(s[1..], k, lo);
    }
  }

  /** No key of an increasing sequence starting at or above `k` is below `k`. */
  lemma {:induction false} BelowNone(s: seq<real>, k: real)
    requires Increasing(s)
    requires |s| > 0 ==> k <= s[0]
    ensures Below(s, k) == 0
  {
    if |s| > 0 {
      BelowNone(s[1..], k);
    }
  }

  /** When the first `m` keys are below `k` and the rest are not, exactly
      `m` keys are below `k`. */
  lemma {:induction false} BelowSplit(s: seq<real>, m: nat, k: real)
    requires m <= |s|
    requires forall j :: 0 <= j < m ==> s[j] < k
    requires forall j :: m <= j < |s| ==> k <= s[j]
    ensures Below(s, k) == m
  {
    if |s| > 0 {
      if m > 0 {
        BelowSplit(s[1..], m - 1, k);
      } else {
        BelowSplit(s[1..], 0, k);
      }
    }
  }

  /** Two increasing sequences with the same keys start with the same key. */
  lemma SameHead(a: seq<real>, b: seq<real>)
    requires Increasing(a) && Increasing(b)
    requires multiset(a) == multiset(b) && |a| > 0
    ensures |b| > 0 && a[0] == b[0]
  {
    assert a[0] in multiset(b);
    var j :| 0 <= j < |b| && b[j] == a[0];
    assert b[0] in multiset(a);
    var l :| 0 <= l < |a| && a[l] == b[0];
    assert a[0] <= a[l] && b[0] <= b[j];
  }

  /** Dropping the first key keeps a sequence increasing. */
  lemma TailIncreasing(a: seq<real>)
    requires Increasing(a) && |a| > 0
    ensures Increasing(a[1..])
  {
    forall j, k | 0 <= j < k < |a| - 1
      ensures a[1..][j] < a[1..][k]
    {
      assert a[1..][j] == a[j + 1] && a[1..][k] == a[k + 1];
    }
  }

  /** An increasing sequence is determined by its multiset of keys: there is
      only one way to sort distinct keys. */
  lemma {:induction false} SortedUnique(a: seq<real>, b: seq<real>)
    requires Increasing(a) && Increasing(b)
    requires multiset(a) == multiset(b)
    ensures a == b
  {
    if |a| == 0 {
      assert |multiset(b)| == 0;
    } else {
      SameHead(a, b);
      TailIncreasing(a);
      TailIncreasing(b);
      assert a == [a[0]] + a[1..];
      assert b == [b[0]] + b[1..];
      assert multiset(a) == multiset{a[0]} + multiset(a[1..]);
      assert multiset(b) == multiset{b[0]} + multiset(b[1..]);
      assert multiset(a[1..]) == multiset(a) - multiset{a[0]};
      assert multiset(b[1..]) == multiset(b) - multiset{b[0]};
      SortedUnique(a[1..], b[1..]);
    }
  }
}

=== FILE: text.dfy ===
/** JavaScript's `String.prototype.trim`, which every edit dialog applies to
    its input before using it. */
module Text {

  /** The characters `trim` strips: the ECMAScript white-space characters
      (tab, vertical tab, form feed, space, no-break space, byte-order mark
      and the other Unicode space separators) and the line terminators. */
  predicate IsSpace(c: char) {
    || c == '\t' || c == '\n' || c == '\U{000B}' || c == '\U{000C}' || c == '\r'
    || c == ' ' || c == '\U{00A0}' || c == '\U{1680}'
    || ('\U{2000}' <= c <= '\U{200A}')
    || c == '\U{2028}' || c == '\U{2029}' || c == '\U{202F}' || c == '\U{205F}'
    || c == '\U{3000}' || c == '\U{FEFF}'
  }

  /** Every character of `s` is white space. */
  predicate AllSpace(s: string) {
    forall j :: 0 <= j < |s| ==> IsSpace(s[j])
  }

  /** Length of the white-space run at the start of `s`. */
  function LeadingSpace(s: string): (n: nat)
    ensures n <= |s|
    ensures AllSpace(s[..n])
    ensures n < |s| ==> !IsSpace(s[n])
  {
    if |s| == 0 || !IsSpace(s[0]) then 0
    else
      var m := LeadingSpace(s[1..]);
      assert s[..m + 1] == [s[0]] + s[1..][..m];
      1 + m
  }

  /** Length of the white-space run at the end of `s`. */
  function TrailingSpace(s: string): (n: nat)
    ensures n <= |s|
    ensures AllSpace(s[|s| - n..])
    ensures n < |s| ==> !IsSpace(s[|s| - n - 1])
  {
    if |s| == 0 || !IsSpace(s[|s| - 1]) then 0
    else
      var t := s[..|s| - 1];
      var m := TrailingSpace(t);
      assert s[|s| - (m + 1)..] == t[|t| - m..] + [s[|s| - 1]];
      1 + m
  }

  /** `s` without its leading and trailing white space. */
  function Trim(s: string): (r: string)
    ensures |r| <= |s|
    ensures |r| == 0 <==> AllSpace(s)
    ensures |r| > 0 ==> !IsSpace(r[0]) && !IsSpace(r[|r| - 1])
  {
    var a := LeadingSpace(s);
    if a == |s| then ""
    else
      var rest := s[a..];
      var b := TrailingSpace(rest);
      assert b < |rest| && !IsSpace(rest[0]);
      rest[..|rest| - b]
  }

  /** The reference characterisation of `trim`: white space around a core
      that neither starts nor ends with white space is removed, and the
      core is kept exactly. */
  lemma TrimPadded(pre: string, core: string, post: string)
    requires AllSpace(pre) && AllSpace(post)
    requires |core| > 0 ==> !IsSpace(core[0]) && !IsSpace(core[|core| - 1])
    ensures Trim(pre + core + post) == core
  {
    var s := pre + core + post;
    if |core| == 0 {
      assert AllSpace(s);
    } else {
      LeadingSpaceOf(pre, core + post);
      assert s == pre + (core + post);
      var rest := s[|pre|..];
      assert rest == core + post;
      TrailingSpaceOf(core, post);
    }
  }

  /** The leading run of `pre + t` is `pre` when `t` starts with a
      non-space. */
  lemma {:induction false} LeadingSpaceOf(pre: string, t: string)
    requires AllSpace(pre) && |t| > 0 && !IsSpace(t[0])
    ensures LeadingSpace(pre + t) == |pre|
  {
    if |pre| > 0 {
      assert (pre + t)[1..] == pre[1..] + t;
      LeadingSpaceOf(pre[1..], t);
    }
  }

  /** The trailing run of `t + post` is `post` when `t` ends with a
      non-space. */
  lemma {:induction false} TrailingSpaceOf(t: string, post: string)
    requires AllSpace(post) && |t| > 0 && !IsSpace(t[|t| - 1])
    ensures TrailingSpace(t + post) == |post|
  {
    if |post| > 0 {
      assert (t + post)[..|t + post| - 1] == t + post[..|post| - 1];
      TrailingSpaceOf(t, post[..|post| - 1]);
    }
  }

  /** Trimming twice is trimming once. */
  lemma TrimIdempotent(s: string)
    ensures Trim(Trim(s)) == Trim(s)
  {
    TrimPadded("", Trim(s), "");
    assert "" + Trim(s) + "" == Trim(s);
  }

  /** Conversely, `s` is its trimmed form padded with white space on both
      sides. */
  lemma TrimSplits(s: string)
    ensures exists a :: 0 <= a <= |s| - |Trim(s)| && s[a..a + |Trim(s)|] == Trim(s)
              && AllSpace(s[..a]) && AllSpace(s[a + |Trim(s)|..])
  {
    var a := LeadingSpace(s);
    if a == |s| {
      assert s[a..a + 0] == "";
    } else {
      var rest := s[a..];
      var b := TrailingSpace(rest);
      assert s[a..a + |Trim(s)|] == rest[..|rest| - b];
      assert s[a + |Trim(s)|..] == rest[|rest| - b..];
    }
  }
}

=== FILE: view_chain.dfy ===
/** The board page's chain of expanded editing views.

    The board view owns one array of expanded views shared with its title,
    description and add-list views. A view that expands itself collapses
    everything in the chain and pushes itself; a click on the page body pops
    and collapses the last one. Views are identified by number, and a
    collapse is observed as the view's id in the `collapsed` log. */
module ViewChain {

  type ViewId = nat

  /** The chain after an operation, and the views collapsed by it in call
      order. */
  datatype Step = Step(chain: seq<ViewId>, collapsed: seq<ViewId>)

  /** `rememberMe`: shift the front view off the chain and collapse it
      until the chain is empty, then push `self`. */
  function RememberMe(chain: seq<ViewId>, self: ViewId): (s: Step)
    ensures s.chain == [self]
    ensures s.collapsed == chain
  {
    if |chain| == 0 then Step([self], [])
    else
      var rest := RememberMe(chain[1..], self);
      Step(rest.chain, [chain[0]] + rest.collapsed)
  }

  /** `forgetMe`: when `self` is anywhere in the chain, pop the LAST view
      (whichever it is); otherwise leave the chain alone. Nothing is
      collapsed. */
  function ForgetMe(chain: seq<ViewId>, self: ViewId): (r: seq<ViewId>)
    ensures self !in chain ==> r == chain
    ensures self in chain ==> |r| == |chain| - 1 && r == chain[..|r|]
  {
    if self in chain then chain[..|chain| - 1] else chain
  }

  /** `collapsePreviousEdit`: pop the last view and collapse it; an empty
      chain is left as it is. */
  function CollapsePreviousEdit(chain: seq<ViewId>): (s: Step)
    ensures |chain| == 0 ==> s == Step([], [])
    ensures |chain| > 0 ==> s.chain + s.collapsed == chain && |s.collapsed| == 1
  {
    if |chain| == 0 then Step(chain, [])
    else Step(chain[..|chain| - 1], [chain[|chain| - 1]])
  }

  /** The events that act on the chain. */
  datatype Op = Remember(view: ViewId) | Forget(view: ViewId) | CollapsePrevious

  function Exec(chain: seq<ViewId>, op: Op): (r: seq<ViewId>)
  {
    match op
    case Remember(v) => RememberMe(chain, v).chain
    case Forget(v) => ForgetMe(chain, v)
    case CollapsePrevious => CollapsePreviousEdit(chain).chain
  }

  /** The chain after a sequence of events. */
  function Run(chain: seq<ViewId>, ops: seq<Op>): seq<ViewId>
    decreases |ops|
  {
    if |ops| == 0 then chain else Run(Exec(chain, ops[0]), ops[1..])
  }

  /** At most one view is ever expanded: from an empty or one-view chain
      every sequence of events keeps the chain at one view or none. */
  lemma {:induction false} AtMostOneExpanded(chain: seq<ViewId>, ops: seq<Op>)
    requires |chain| <= 1
    ensures |Run(chain, ops)| <= 1
    decreases |ops|
  {
    if |ops| > 0 {
      var next := Exec(chain, ops[0]);
      assert |next| <= 1;
      AtMostOneExpanded(next, ops[1..]);
    }
  }

  /** With at most one view expanded, `forgetMe` removes exactly the view
      that asks, and leaves the chain alone for any other view. */
  lemma ForgetMeRemovesSelf(chain: seq<ViewId>, self: ViewId)
    requires |chain| <= 1
    ensures self in chain ==> ForgetMe(chain, self) == [] && chain == [self]
    ensures self !in chain ==> ForgetMe(chain, self) == chain
  {
  }

  /** A collapsed view that calls `forgetMe` from its `collapse` (as the
      description view does) finds itself already gone from a chain of at
      most one view, so the nested call changes nothing. That holds on both
      paths that collapse it: a body click pops it before collapsing it, and
      `rememberMe` shifts it off the front before collapsing it, leaving
      `chain[1..]` for the nested `forgetMe` to see. */
  lemma CollapseReentryHarmless(chain: seq<ViewId>)
    requires 0 < |chain| <= 1
    ensures var s := CollapsePreviousEdit(chain);
            ForgetMe(s.chain, s.collapsed[0]) == s.chain
    ensures ForgetMe(chain[1..], chain[0]) == chain[1..]
  {
  }
}

=== FILE: wrappers.dfy ===
/** The optional value used wherever the source may hold `undefined`. */
module Wrappers {

  datatype Option<+T> = None | Some(value: T)
}
